=== FILE: README.md ===
# QAndroidJniImagePair in Dafny

A model of `QAndroidJniImagePair`, from the Qt offscreen-views library for
Android. The class pairs a Java `android.graphics.Bitmap` with a `QImage`
laid over the bitmap's locked pixel memory, so that Qt can paint into
memory that Android later draws. The model covers:

- **Pixel conversion.** Qt stores 32-bit pixels as ARGB words and Android
  stores them as ABGR words. The class converts between them by exchanging
  the red and blue bytes of each word. It does this in place or into a
  second image, and only in 32-bit mode. The exchange is its own inverse,
  so Android-to-Qt runs the same code as Qt-to-Android.
- **Format mapping.** An Android bitmap format code maps to a Qt image
  format. A pair's bitness also maps to an image format.
- **Bitmap-info sanitisation.** `doResize` checks the bitmap description
  Android reports for a new bitmap. If the description is bogus, it falls
  back to the requested size and a computed stride.
- **Allocation state machine.** This covers the constructor, `dispose`,
  `resize` (with `doResize`), `isAllocated`, `size`, and the colour chosen
  by `fill`.

Modules, one per concern:

| file | module | contents |
|---|---|---|
| `options.dfy` | `Options`, `Machine` | `Option`; the `uint32_t` and `int` ranges, and the store of an `int` into a `uint32_t` |
| `pixels.dfy` | `Pixels` | channel readers for ARGB32 words, and `Swap`, the red/blue exchange |
| `formats.dfy` | `Formats` | `ImageFormat`, the Android format codes, and the two format mappings |
| `bitmap_info.dfy` | `BitmapInfo` | `AndroidBitmapInfo`, `IsBogus`, and `Sanitize` |
| `image_pair.dfy` | `ImagePair` | `Image`, `Pair`, the invariant `Inv`, `Dispose`, `Resize`, `Size` |
| `conversion.dfy` | `Conversion` | the two conversion loops, their Pair-level forms, and the fill colour |

The Java and Android calls made by `doResize` appear only through their
outcomes. These are bundled in `ImagePair.JniOutcome`: the bitmap that
`createBitmap` returned (or none), the status and record from
`AndroidBitmap_getInfo`, the status, null-pointer flag and memory from
`AndroidBitmap_lockPixels`, and whether Qt built a null image over that
memory. `Resize` is a deterministic function of the old state, the
requested size and this outcome.

An image's pixel memory is a `seq<bv32>`. It is read as 32-bit words
starting at the first scan line. The code's conversion loops visit
`width * height` consecutive words. These are all of the image's pixels
when rows are packed (stride = 4 · width). That is the case for the
fallback stride in 32-bit mode and for ARGB32 images Qt allocates itself.
With padded rows and two or more rows, the loops reach row padding and
miss pixels at the ends of the later rows
(`Conversion.PaddedConversionMissesPixels`).

The code never checks that the words its conversion loops visit lie
inside the image's buffer. They do for ARGB32 images whose buffer holds
stride × height bytes with stride ≥ 4 · width. They do not when Android
reports an RGB_565 bitmap to a 32-bit pair: the image is then RGB16 and
its buffer is half the size the loops assume
(`Conversion.Rgb16In32BitModeOverruns`).

`ImagePair.Inv` describes the states the modelled operations reach:
either the disposed state with its fresh placeholder, or a non-null bitmap
with a non-empty image of a valid format. Painting is not modelled, so
`Inv` pins a disposed pair to an unpainted placeholder. The code can also
reach a painted placeholder with no bitmap (construct, then `fill`). From
that state `dispose` returns early and keeps the paint.

The stride check in `doResize` compares the stride, in bytes, with the
width, in pixels. A record whose stride is shorter than one row of pixels
can therefore pass as trusted. The model keeps this comparison as written.

## Model

| member | source | states |
|---|---|---|
| `Pixels.Swap` | QtOffscreenViews/QAndroidJniImagePair.cpp:262-264 | the converted word keeps the alpha and green bytes (`& 0xFF00FF00` unchanged), and its red byte is the input's blue byte and vice versa |
| `Pixels.SwapOfArgb` | QtOffscreenViews/QAndroidJniImagePair.cpp:263 | the conversion turns the word packed from (a, r, g, b) into the word packed from (a, b, g, r), i.e. ARGB into ABGR |
| `Pixels.SwapInvolution` | QtOffscreenViews/QAndroidJniImagePair.cpp:297-299 | converting a word twice gives the original word back |
| `Pixels.SwapInjective` | QtOffscreenViews/QAndroidJniImagePair.cpp:297-299 | two words convert to the same word if and only if they are equal |
| `Formats.FromAndroid` | QtOffscreenViews/QAndroidJniImagePair.cpp:46-58 | the result is valid if and only if the code is RGB_565 or RGBA_8888; a valid result maps back to the same code, with 16 bits per pixel for RGB_565 and 32 for RGBA_8888 |
| `Formats.FromAndroidOfCode` | QtOffscreenViews/QAndroidJniImagePair.cpp:46-58 | for every valid format, mapping its Android code back gives the same format |
| `Formats.ForBitness` | QtOffscreenViews/QAndroidJniImagePair.cpp:60-72 | the result is never Invalid; it is RGB16 exactly for bitness 16 and ARGB32 otherwise; for bitness 16 and 32 its depth equals the bitness |
| `Formats.BytesPerLine` | QtOffscreenViews/QAndroidJniImagePair.cpp:276 | a Qt-allocated row is a multiple of 4 bytes and holds width × depth bits; for ARGB32 it is exactly 4 · width, for RGB16 it is 4 · ⌈width / 2⌉ (the least multiple of 4 bytes that holds the row) |
| `BitmapInfo.QueriedInfo` | QtOffscreenViews/QAndroidJniImagePair.cpp:148-162 | after a failed query the record is always treated as bogus; after a successful query it is the reported record |
| `BitmapInfo.FallbackStride` | QtOffscreenViews/QAndroidJniImagePair.cpp:176 | unless the product wraps past 2^32, the stride is width × 4 in 32-bit mode and width × 2 otherwise, and it is at least the width |
| `BitmapInfo.Sanitize` | QtOffscreenViews/QAndroidJniImagePair.cpp:169-188 | fails if and only if the record is trusted and its format is unknown; on success width and height are positive and the format is valid; a trusted record keeps its geometry and format; a bogus record becomes exactly the requested width and height, the fallback stride (width × 4 in 32-bit mode, width × 2 otherwise) and the bitness's format; the stride is at least the width unless the fallback product wraps |
| `BitmapInfo.SanitizeFixpoint` | QtOffscreenViews/QAndroidJniImagePair.cpp:169-188 | a layout produced by sanitisation, reported back, is not bogus and sanitises to itself for any request |
| `BitmapInfo.FallbackStrideIsPackedRow` | QtOffscreenViews/QAndroidJniImagePair.cpp:176-177 | for bitness 16 and 32 the fallback stride is exactly one packed row of the fallback format |
| `BitmapInfo.FallbackStrideShortForOtherBitness` | QtOffscreenViews/QAndroidJniImagePair.cpp:176-177 | for any other bitness the fallback format is ARGB32 but the stride counts 2 bytes per pixel, so it is shorter than one row |
| `BitmapInfo.FallbackStrideWraps` | QtOffscreenViews/QAndroidJniImagePair.cpp:176 | a 32-bit request 2^30 pixels wide, with a bogus record, gets stride 0 |
| `ImagePair.Allocate` | QtOffscreenViews/QAndroidJniImagePair.cpp:98 | a Qt-allocated image is null exactly for an empty size or an invalid format; otherwise it has the given size, format and a row-padded buffer of stride × height bytes |
| `ImagePair.Create` | QtOffscreenViews/QAndroidJniImagePair.cpp:74-81 | a new pair is in the disposed state: placeholder image, no bitmap, not allocated |
| `ImagePair.Dispose` | QtOffscreenViews/QAndroidJniImagePair.cpp:92-100 | afterwards there is no bitmap, the image is 1×1, the pair is not allocated and its size is (0, 0); from any state satisfying `Inv`, or whenever the early return is not taken, the result is the disposed state |
| `ImagePair.DisposeIdempotent` | QtOffscreenViews/QAndroidJniImagePair.cpp:92-100 | disposing twice is the same as disposing once |
| `ImagePair.IsAllocated` | QtOffscreenViews/QAndroidJniImagePair.cpp:309-312 | in a state satisfying `Inv` the pair is allocated if and only if it holds a bitmap, and an allocated pair's image has positive width and height |
| `ImagePair.Size` | QtOffscreenViews/QAndroidJniImagePair.cpp:328-335 | (0, 0) whenever the pair is not allocated; in a state satisfying `Inv` the size is (0, 0) if and only if the pair is not allocated, and an allocated pair's size is positive in both dimensions; a non-zero size is the image's size |
| `ImagePair.DoResize` | QtOffscreenViews/QAndroidJniImagePair.cpp:122-241 | a request below 1×1 fails and changes nothing; success holds if and only if every Java/Android step succeeds, and then installs the new bitmap with an image of the sanitised layout over the locked memory, leaving an allocated pair satisfying `Inv`; when only the image over the locked memory comes out null, the result is always the fresh disposed state (placeholder image, no bitmap), because the null image has already replaced the old one; every earlier failure disposes the old pair |
| `ImagePair.Resize` | QtOffscreenViews/QAndroidJniImagePair.cpp:314-321 | a same-size request on an allocated pair succeeds and changes nothing; from a state satisfying `Inv` a request below 1×1 fails and changes nothing; a null image over the locked memory always leaves the fresh disposed state, and every earlier failure disposes the old pair; success leaves the pair allocated; without the shortcut, success installs the new bitmap with an image of the sanitised layout over the locked memory; success holds if and only if the shortcut applies or every Java/Android step succeeds |
| `ImagePair.NullImageResetsPlaceholder` | QtOffscreenViews/QAndroidJniImagePair.cpp:226-236 | a disposed pair whose 1×1 placeholder was painted is reset to the fresh placeholder when the image built over the new bitmap is null |
| `ImagePair.ResizePreservesInv` | QtOffscreenViews/QAndroidJniImagePair.cpp:122-241 | whatever the outcomes, a resize from a state satisfying `Inv` reaches a state satisfying `Inv` |
| `ImagePair.ResizeKeepsMemoryCovered` | QtOffscreenViews/QAndroidJniImagePair.cpp:226-239 | if the locked memory holds the sanitised layout's bytes, every resize outcome leaves an image whose buffer holds stride × height bytes |
| `ImagePair.ResizeSize` | QtOffscreenViews/QAndroidJniImagePair.cpp:160-231 | when every step succeeds, the new size is the reported one if the record was trusted, and the requested one if it was not |
| `ImagePair.ResizeTwice` | QtOffscreenViews/QAndroidJniImagePair.cpp:314-321 | after a successful resize to the requested size, resizing to it again succeeds without any Java call and changes nothing |
| `Conversion.SwapInto` | QtOffscreenViews/QAndroidJniImagePair.cpp:282-287 | the first n words of the result are the converted source words, and the rest of the destination is untouched |
| `Conversion.SwapIntoInvolution` | QtOffscreenViews/QAndroidJniImagePair.cpp:297-299 | converting the same prefix in place twice restores the buffer |
| `Conversion.SwapQuadsInPlace` | QtOffscreenViews/QAndroidJniImagePair.cpp:257-265 | the in-place pointer loop converts exactly the first width × height words and leaves the rest alone |
| `Conversion.SwapQuadsInto` | QtOffscreenViews/QAndroidJniImagePair.cpp:278-287 | the copying loop writes the converted source words over the first width × height destination words and leaves the rest alone |
| `Conversion.QtToAndroid` | QtOffscreenViews/QAndroidJniImagePair.cpp:253-267 | in 32-bit mode every visited word is converted and the rest of the buffer is unchanged; only the words change, so the image record (size, stride, format) and the bitmap are kept; in other modes nothing changes |
| `Conversion.ConvertInPlace` | QtOffscreenViews/QAndroidJniImagePair.cpp:253-267 | the method with its loop computes the in-place conversion |
| `Conversion.AndroidToQt` | QtOffscreenViews/QAndroidJniImagePair.cpp:295-300 | the Android-to-Qt conversion is undone by Qt-to-Android |
| `Conversion.PackedConversionSwapsEveryPixel` | QtOffscreenViews/QAndroidJniImagePair.cpp:257-265 | with packed rows, every pixel (x, y) of the image is converted |
| `Conversion.PaddedConversionMissesPixels` | QtOffscreenViews/QAndroidJniImagePair.cpp:257-265 | with rows padded to 3 words in a 2×2 image, pixel (1, 1) is left unconverted |
| `Conversion.Destination` | QtOffscreenViews/QAndroidJniImagePair.cpp:273-277 | the image written into always has the source's size and format, and is the given out_image itself whenever that already matches |
| `Conversion.QtToAndroidInto` | QtOffscreenViews/QAndroidJniImagePair.cpp:269-293 | the output has the source's size and format; in 32-bit mode it is the destination (the reused out_image, or a fresh image) with only its first width × height words replaced by the converted source words, so its stride and remaining words are kept; in other modes it equals the source |
| `Conversion.ConvertInto` | QtOffscreenViews/QAndroidJniImagePair.cpp:269-293 | the method with its loop computes the copying conversion |
| `Conversion.AndroidToQtInto` | QtOffscreenViews/QAndroidJniImagePair.cpp:302-307 | the output has the source's size and format; in 32-bit mode it is the destination with its stride and its words after the first width × height kept, and converting each of those first words once more gives the source word back; in other modes it equals the source |
| `Conversion.CopyRoundTrip` | QtOffscreenViews/QAndroidJniImagePair.cpp:295-307 | copying Qt-to-Android and then Android-to-Qt, into any destinations, gives an image of the source's shape holding the source's pixels |
| `Conversion.QuadsFitWhenCovered` | QtOffscreenViews/QAndroidJniImagePair.cpp:257-265 | an ARGB32 image whose buffer holds stride × height bytes, with stride ≥ 4 · width, has room for the width × height words the in-place loop visits |
| `Conversion.CopyFitsWhenCovered` | QtOffscreenViews/QAndroidJniImagePair.cpp:273-287 | under the same condition the copying loop stays within the source and within the destination, whether reused or freshly allocated |
| `Conversion.DisposedConversionFits` | QtOffscreenViews/QAndroidJniImagePair.cpp:98 | the disposed pair's 1×1 placeholder can be converted in every bitness |
| `Conversion.Rgb16In32BitModeOverruns` | QtOffscreenViews/QAndroidJniImagePair.cpp:181-231 | a 32-bit pair to which Android reports a trusted 2×2 RGB_565 record resizes successfully to a state satisfying `Inv` whose RGB16 buffer is smaller than the words the loops visit |
| `Conversion.FillColour` | QtOffscreenViews/QAndroidJniImagePair.cpp:243-251 | alpha and green are kept; red and blue are exchanged exactly when an Android colour is requested in 32-bit mode |
| `Conversion.FillAgreesWithConversion` | QtOffscreenViews/QAndroidJniImagePair.cpp:246-249 | filling with an Android colour in 32-bit mode writes the same word as converting the Qt colour's word |

## Left out

- Java and Android calls (`createBitmap` through the Java class, `AndroidBitmap_getInfo`, `AndroidBitmap_lockPixels`, the JNI environment): these are foreign calls. They appear only as their outcomes in `JniOutcome`. A missing Java class and a Java exception in `createBitmap` both show up as an absent bitmap.
- Building a `QImage` over the locked pointer: this is memory aliasing. The image's words are the locked memory as the outcome supplies it. Whether Qt returns a null image is an outcome too, not Qt's own rule.
- `QImage::fill` itself: this is Qt internals. Only the colour that `fill` passes to it is modelled.
- The contents of Qt-allocated images (the 1×1 placeholder and a fresh destination image): the code leaves them uninitialised. The model uses zero words.
- `preloadJavaClasses`, the destructor, and all logging (`qDebug`, `qWarning`, `qCritical`, `gettid`): these compute nothing. That includes the warning when Android's size differs from the request.
- `resize(const QSize &)`: it only forwards to `resize(w, h)`, which is `ImagePair.Resize`.
- Conversion.QtToAndroid: the loop count width × height is an `int` in the code. The model does not wrap it; wrapping would need an image of at least 2^31 pixels.
- Conversion.QtToAndroid: the model requires that the width × height visited words lie inside the buffer (`QuadsFit`, and `CopyFits` for the copying forms). The code never checks this and reads and writes past the buffer when it does not hold. `Conversion.QuadsFitWhenCovered` and `Conversion.CopyFitsWhenCovered` give the states where it holds; `Conversion.Rgb16In32BitModeOverruns` gives a state satisfying `Inv` where it does not.
- ImagePair.JniOutcome: the size of the locked memory is not tied to the layout. The code does not check it either. `ImagePair.LockedMemoryCovers` names the assumption under which a resize leaves a buffer covering its geometry.
- BitmapInfo.FallbackStride: signed `int` overflow is undefined in C++. The model takes the two's-complement result, which is the product modulo 2^32.
- The two Java helpers, the dialog helper and the barcode-scanner listener: these are UI-thread marshalling, semaphores and vendor SDK callbacks. They have no self-contained logic to model.

=== FILE: bitmap_info.dfy ===
/**
  The bitmap-description record reported by Android for a freshly created
  bitmap, and the sanitisation `doResize` applies to it before building an
  image over the bitmap's memory.
*/
module BitmapInfo {
  import opened Options
  import opened Machine
  import opened Formats

  /** `AndroidBitmapInfo` (its `flags` field is never read and is left out).
      Width and height are in pixels, stride in bytes. */
  datatype AndroidBitmapInfo = AndroidBitmapInfo(width: u32, height: u32, stride: u32, format: u32)

  const ZEROED_INFO := AndroidBitmapInfo(0, 0, 0, 0)

  /** The geometry the image over the bitmap is finally built with. */
  datatype Layout = Layout(width: u32, height: u32, stride: u32, format: ImageFormat)

  /** A record the code refuses to trust (seen on devices that report
      shifted fields). Note that stride, in bytes, is compared with width,
      in pixels. */
  predicate IsBogus(info: AndroidBitmapInfo)
  {
    info.format == 0 || info.stride == 0 || info.width == 0 || info.height == 0 || info.stride < info.width
  }

  /** The record as read back: when the query reports an error the record is
      zeroed, which forces the fallback below. */
  function QueriedInfo(status: int, reported: AndroidBitmapInfo): (info: AndroidBitmapInfo)
    ensures status != 0 ==> IsBogus(info)
    ensures !IsBogus(info) ==> info == reported
    ensures status == 0 ==> info == reported
  {
    if status != 0 then ZEROED_INFO else reported
  }

  /** Bytes per pixel the fallback assumes: 4 in 32-bit mode, 2 otherwise. */
  function FallbackBytesPerPixel(bitness: int): nat
  {
    if bitness == 32 then 4 else 2
  }

  /** `size.width() * (4 or 2)`: an `int` product stored into a `uint32_t`.
      The multiplication overflows `int` for very wide requests; the model
      takes the two's-complement result, i.e. the product modulo 2^32. */
  function FallbackStride(bitness: int, width: i32): (stride: u32)
    requires width >= 1
    ensures width * FallbackBytesPerPixel(bitness) < TWO_TO_THE_32 ==>
              stride == width * FallbackBytesPerPixel(bitness) && stride >= width
  {
    ToU32(width * FallbackBytesPerPixel(bitness))
  }

  /** True when the fallback stride is computed without wrap-around. */
  predicate StrideFits(bitness: int, width: int)
  {
    width * FallbackBytesPerPixel(bitness) < TWO_TO_THE_32
  }

  /**
    The sanitisation branch of `doResize` for a request of `width` x `height`
    (already checked to be at least 1x1). A bogus record is replaced by the
    requested size, the computed stride and the bitness's format; a trusted
    record keeps its geometry and has its format mapped, and None means the
    format is unknown, so the resize fails.
  */
  function Sanitize(bitness: int, width: i32, height: i32, info: AndroidBitmapInfo): (r: Option<Layout>)
    requires width >= 1 && height >= 1
    ensures r.None? <==> !IsBogus(info) && FromAndroid(info.format) == Invalid
    ensures r.Some? ==> r.value.width > 0 && r.value.height > 0 && r.value.format != Invalid
    ensures r.Some? && !IsBogus(info) ==>
              r.value.width == info.width && r.value.height == info.height &&
              r.value.stride == info.stride && AndroidCode(r.value.format) == info.format
    ensures IsBogus(info) ==>
              r == Some(Layout(width, height, FallbackStride(bitness, width), ForBitness(bitness)))
    ensures r.Some? && (!IsBogus(info) || StrideFits(bitness, width)) ==> r.value.stride >= r.value.width
  {
    if IsBogus(info) then
      Some(Layout(width, height, FallbackStride(bitness, width), ForBitness(bitness)))
    else
      var format := FromAndroid(info.format);
      if format == Invalid then None else Some(Layout(info.width, info.height, info.stride, format))
  }

  /** The record that describes a layout in Android's terms. */
  function Report(layout: Layout): (info: AndroidBitmapInfo)
    requires layout.format != Invalid
  {
    AndroidBitmapInfo(layout.width, layout.height, layout.stride, AndroidCode(layout.format))
  }

  /** Sanitisation is idempotent: a layout it produced (whenever its stride
      did not wrap) is trusted as reported, whatever size is requested next. */
  lemma SanitizeFixpoint(bitness: int, width: i32, height: i32, info: AndroidBitmapInfo, width': i32, height': i32)
    requires width >= 1 && height >= 1 && width' >= 1 && height' >= 1
    requires Sanitize(bitness, width, height, info).Some?
    requires !IsBogus(info) || StrideFits(bitness, width)
    ensures var layout := Sanitize(bitness, width, height, info).value;
            !IsBogus(Report(layout)) && Sanitize(bitness, width', height', Report(layout)) == Some(layout)
  {
  }

  /** For bitness 16 and 32 the fallback stride is exactly one packed row of
      the fallback format. */
  lemma FallbackStrideIsPackedRow(bitness: int, width: i32)
    requires bitness == 16 || bitness == 32
    requires width >= 1 && StrideFits(bitness, width)
    ensures FallbackStride(bitness, width) * 8 == width * Depth(ForBitness(bitness))
  {
  }

  /** For any other bitness the fallback format is ARGB32 (4 bytes per
      pixel) while the fallback stride counts 2 bytes per pixel, so the
      stride is shorter than one row. */
  lemma FallbackStrideShortForOtherBitness(bitness: int, width: i32)
    requires bitness != 16 && bitness != 32
    requires width >= 1
    ensures FallbackStride(bitness, width) * 8 < width * Depth(ForBitness(bitness))
  {
  }

  /** With a 32-bit request 2^30 pixels wide the stride product wraps to 0:
      the sanitised record then has a stride shorter than its width. */
  lemma FallbackStrideWraps()
    ensures Sanitize(32, 0x4000_0000, 1, ZEROED_INFO) == Some(Layout(0x4000_0000, 1, 0, ARGB32))
  {
  }
}

=== FILE: conversion.dfy ===
/**
  Colour-order conversion of the pair's image between Qt's ARGB32 and
  Android's ABGR word order, in place and into a second image, and the
  colour `fill` uses. Conversion happens only in 32-bit mode, and touches
  width x height consecutive words from the first scan line, which are all
  of the pixels when rows are packed (stride == 4 * width).
*/
module Conversion {
  import opened Options
  import opened Formats
  import opened Pixels
  import opened ImagePair
  import opened BitmapInfo

  /** Number of words the conversion loops visit: width * height. */
  function Quads(img: Image): nat
  {
    img.Width() * img.Height()
  }

  /** The buffer after its first `n` words are read from `src`, swapped,
      and written over `dest`; the rest of `dest` is untouched. */
  function SwapInto(src: seq<bv32>, dest: seq<bv32>, n: nat): (r: seq<bv32>)
    requires n <= |src| && n <= |dest|
    ensures |r| == |dest|
    ensures forall i :: 0 <= i < n ==> r[i] == Swap(src[i])
    ensures forall i :: n <= i < |dest| ==> r[i] == dest[i]
    decreases n
  {
    if n == 0 then dest else SwapInto(src, dest, n - 1)[n - 1 := Swap(src[n - 1])]
  }

  /** Swapping the same prefix twice in place restores the buffer. */
  lemma SwapIntoInvolution(words: seq<bv32>, n: nat)
    requires n <= |words|
    ensures var once := SwapInto(words, words, n); SwapInto(once, once, n) == words
  {
  }

  /** The in-place loop of `convert32BitImageFromQtToAndroid()`. */
  method SwapQuadsInPlace(words: seq<bv32>, n: nat) returns (r: seq<bv32>)
    requires n <= |words|
    ensures r == SwapInto(words, words, n)
  {
    r := words;
    var i := 0;
    while i < n
      invariant 0 <= i <= n
      invariant |r| == |words|
      invariant forall k :: 0 <= k < i ==> r[k] == Swap(words[k])
      invariant forall k :: i <= k < |words| ==> r[k] == words[k]
    {
      var c := r[i];
      r := r[i := Swap(c)];
      i := i + 1;
    }
  }

  /** The copying loop of `convert32BitImageFromQtToAndroid(out_image)`. */
  method SwapQuadsInto(src: seq<bv32>, dest: seq<bv32>, n: nat) returns (r: seq<bv32>)
    requires n <= |src| && n <= |dest|
    ensures r == SwapInto(src, dest, n)
  {
    r := dest;
    var i := 0;
    while i < n
      invariant 0 <= i <= n
      invariant |r| == |dest|
      invariant forall k :: 0 <= k < i ==> r[k] == Swap(src[k])
      invariant forall k :: i <= k < |dest| ==> r[k] == dest[k]
    {
      var c := src[i];
      r := r[i := Swap(c)];
      i := i + 1;
    }
  }

  /** Replaces an image's buffer, keeping its geometry. */
  function WithWords(img: Image, words: seq<bv32>): Image
  {
    if img.NullImage? then img else img.(words := words)
  }

  /** The conversion loops stay within the buffers they read and write. */
  predicate QuadsFit(img: Image)
  {
    Quads(img) <= |img.Words()|
  }

  /** `convert32BitImageFromQtToAndroid()`: swaps red and blue of the first
      width * height words of the pair's image in 32-bit mode, and does
      nothing in any other mode. */
  function QtToAndroid(p: Pair): (q: Pair)
    requires p.bitness == 32 ==> QuadsFit(p.image)
    ensures q.bitness == p.bitness && q.bitmap == p.bitmap
    ensures p.bitness != 32 ==> q == p
    // Only the buffer's words change: the image record, stride included, is kept.
    ensures q == p.(image := WithWords(p.image, q.image.Words()))
    ensures q.image.Width() == p.image.Width() && q.image.Height() == p.image.Height()
    ensures q.image.Format() == p.image.Format()
    ensures |q.image.Words()| == |p.image.Words()|
    ensures p.bitness == 32 ==> QuadsFit(q.image)
    ensures p.bitness == 32 ==> forall i :: 0 <= i < Quads(p.image) ==> q.image.Words()[i] == Swap(p.image.Words()[i])
    ensures forall i :: Quads(p.image) <= i < |p.image.Words()| ==> q.image.Words()[i] == p.image.Words()[i]
  {
    if p.bitness == 32 then
      var words := p.image.Words();
      p.(image := WithWords(p.image, SwapInto(words, words, Quads(p.image))))
    else p
  }

  /** `convert32BitImageFromAndroidToQt()`: the same code, which undoes
      Qt-to-Android because the swap is its own inverse. */
  function AndroidToQt(p: Pair): (q: Pair)
    requires p.bitness == 32 ==> QuadsFit(p.image)
    ensures q.bitness == p.bitness
    ensures p.bitness == 32 ==> QuadsFit(q.image)
    ensures QtToAndroid(q) == p
  {
    var words := p.image.Words();
    if p.bitness == 32 then SwapIntoInvolution(words, Quads(p.image)); QtToAndroid(p)
    else QtToAndroid(p)
  }

  /** The in-place conversion as the code runs it, with its loop. */
  method ConvertInPlace(p: Pair) returns (q: Pair)
    requires p.bitness == 32 ==> QuadsFit(p.image)
    ensures q == QtToAndroid(p)
  {
    q := p;
    if p.bitness == 32 {
      var words := SwapQuadsInPlace(p.image.Words(), Quads(p.image));
      q := p.(image := WithWords(p.image, words));
    }
  }

  /** The word holding pixel (x, y) of a 32-bit image: rows start every
      `stride` bytes. */
  function Pixel(img: Image, x: nat, y: nat): bv32
    requires img.Image? && y * (img.stride / 4) + x < |img.words|
  {
    img.words[y * (img.stride / 4) + x]
  }

  /** Row-major index arithmetic: pixel (x, y) of a w x h image lies among
      its first w * h words. */
  lemma RowMajorIndexInRange(x: nat, y: nat, w: nat, h: nat)
    requires x < w && y < h
    ensures y * w + x < h * w
  {
    var d: nat := h - (y + 1);
    calc {
      h * w;
    ==
      (d + (y + 1)) * w;
    ==
      d * w + (y + 1) * w;
    >=
      (y + 1) * w;
    ==
      y * w + w;
    }
  }

  /** With packed rows the in-place conversion swaps every pixel of the image. */
  lemma PackedConversionSwapsEveryPixel(p: Pair, x: nat, y: nat)
    requires p.bitness == 32 && QuadsFit(p.image)
    requires p.image.Image? && p.image.stride == 4 * p.image.width
    requires x < p.image.width && y < p.image.height
    ensures y * p.image.width + x < Quads(p.image)
    ensures Pixel(QtToAndroid(p).image, x, y) == Swap(Pixel(p.image, x, y))
  {
    var w := p.image.width;
    RowMajorIndexInRange(x, y, w, p.image.height);
    assert p.image.stride / 4 == w;
  }

  /** With padded rows it does not: in a 2x2 image whose rows are 3 words
      apart, the conversion visits words 0..3, so pixel (1, 1) at word 4
      keeps its colour order. */
  lemma PaddedConversionMissesPixels()
    ensures var red: bv32 := 0xFFFF0000;
            var p := Pair(32, Image(2, 2, 12, ARGB32, [red, red, red, red, red, red]), Some(Bitmap(1)));
            Pixel(QtToAndroid(p).image, 1, 1) == red != Swap(red)
  {
  }

  /** Two images Qt would treat as interchangeable destinations. */
  predicate SameShape(a: Image, b: Image)
  {
    a.Width() == b.Width() && a.Height() == b.Height() && a.Format() == b.Format()
  }

  /** The destination image the copying conversion writes into: the given
      one when it already matches the source's size and format, a freshly
      allocated one otherwise. */
  function Destination(src: Image, out: Image): (d: Image)
    requires src.WellFormed()
    ensures SameShape(d, src)
    ensures SameShape(out, src) ==> d == out
  {
    if SameShape(out, src) then out else Allocate(src.Width(), src.Height(), src.Format())
  }

  /** The copying conversion stays within both buffers. */
  predicate CopyFits(src: Image, out: Image)
  {
    src.WellFormed() && QuadsFit(src) && Quads(src) <= |Destination(src, out).Words()|
  }

  /** `convert32BitImageFromQtToAndroid(out_image)`: in 32-bit mode the
      result has the source's size and format and holds the swapped source
      words; in any other mode it is a copy of the source. */
  function QtToAndroidInto(p: Pair, out: Image): (r: Image)
    requires p.bitness == 32 ==> CopyFits(p.image, out)
    ensures SameShape(r, p.image)
    ensures p.bitness != 32 ==> r == p.image
    ensures p.bitness == 32 ==> Quads(p.image) <= |r.Words()|
    ensures p.bitness == 32 ==> forall i :: 0 <= i < Quads(p.image) ==> r.Words()[i] == Swap(p.image.Words()[i])
    ensures p.bitness == 32 ==> r == WithWords(Destination(p.image, out), r.Words())
    ensures p.bitness == 32 ==> |r.Words()| == |Destination(p.image, out).Words()|
    ensures p.bitness == 32 ==> forall i :: Quads(p.image) <= i < |r.Words()| ==> r.Words()[i] == Destination(p.image, out).Words()[i]
  {
    if p.bitness == 32 then
      var dest := Destination(p.image, out);
      WithWords(dest, SwapInto(p.image.Words(), dest.Words(), Quads(p.image)))
    else p.image
  }

  /** `convert32BitImageFromAndroidToQt(out_image)`: the same code, which
      undoes Qt-to-Android: converting each result word once more gives the
      source word back. */
  function AndroidToQtInto(p: Pair, out: Image): (r: Image)
    requires p.bitness == 32 ==> CopyFits(p.image, out)
    ensures SameShape(r, p.image)
    ensures p.bitness != 32 ==> r == p.image
    ensures p.bitness == 32 ==> Quads(p.image) <= |r.Words()|
    ensures p.bitness == 32 ==> forall i :: 0 <= i < Quads(p.image) ==> Swap(r.Words()[i]) == p.image.Words()[i]
    ensures p.bitness == 32 ==> r == WithWords(Destination(p.image, out), r.Words())
    ensures p.bitness == 32 ==> |r.Words()| == |Destination(p.image, out).Words()|
    ensures p.bitness == 32 ==> forall i :: Quads(p.image) <= i < |r.Words()| ==> r.Words()[i] == Destination(p.image, out).Words()[i]
  {
    QtToAndroidInto(p, out)
  }

  /** The copying conversion as the code runs it, with its loop. */
  method ConvertInto(p: Pair, out: Image) returns (r: Image)
    requires p.bitness == 32 ==> CopyFits(p.image, out)
    ensures r == QtToAndroidInto(p, out)
  {
    if p.bitness == 32 {
      var dest := Destination(p.image, out);
      var words := SwapQuadsInto(p.image.Words(), dest.Words(), Quads(p.image));
      r := WithWords(dest, words);
    } else {
      r := p.image;
    }
  }

  /** Copying Qt-to-Android and then Android-to-Qt (into any destination)
      gives back the source pixels. */
  lemma CopyRoundTrip(p: Pair, out: Image, out': Image)
    requires QuadsFit(p.image)
    requires p.bitness == 32 ==> CopyFits(p.image, out)
    requires p.bitness == 32 ==> CopyFits(QtToAndroidInto(p, out), out')
    ensures var back := AndroidToQtInto(p.(image := QtToAndroidInto(p, out)), out');
            SameShape(back, p.image) &&
            back.Words()[..Quads(p.image)] == p.image.Words()[..Quads(p.image)]
  {
    var mid := QtToAndroidInto(p, out);
    var back := AndroidToQtInto(p.(image := mid), out');
    var n := Quads(p.image);
    if p.bitness == 32 {
      forall i | 0 <= i < n
        ensures back.Words()[i] == p.image.Words()[i]
      {
        SwapInvolution(p.image.Words()[i]);
      }
    }
  }

  /** Multiplication by a natural number keeps order. */
  lemma MulMonotone(a: nat, b: nat, c: nat)
    requires a <= b
    ensures a * c <= b * c
  {
    var d: nat := b - a;
    assert b * c == a * c + d * c;
  }

  /** An ARGB32 image whose buffer covers its geometry and whose rows are at
      least one packed row long has room for the width * height words the
      conversion loops visit. */
  lemma QuadsFitWhenCovered(img: Image)
    requires img.Image? && MemoryCovers(img)
    requires img.stride >= 4 * img.width
    ensures QuadsFit(img)
  {
    MulMonotone(4 * img.width, img.stride, img.height);
  }

  /** The same for the copying conversion: the source fits, and so does the
      destination, whether it is reused or freshly allocated. */
  lemma CopyFitsWhenCovered(src: Image, out: Image)
    requires src.Image? && src.format == ARGB32 && src.WellFormed() && MemoryCovers(src)
    requires src.stride >= 4 * src.width
    requires SameShape(out, src) ==> out.Image? && MemoryCovers(out) && out.stride >= 4 * out.width
    ensures CopyFits(src, out)
  {
    QuadsFitWhenCovered(src);
    if SameShape(out, src) {
      QuadsFitWhenCovered(out);
    } else {
      var d := Allocate(src.width, src.height, src.format);
      assert d.Image? && d.stride == 4 * d.width;
      QuadsFitWhenCovered(d);
    }
  }

  /** In every bitness the disposed pair can be converted. */
  lemma DisposedConversionFits(bitness: int)
    ensures QuadsFit(Disposed(bitness).image)
  {
  }

  /** The code does not check the bound for every state satisfying Inv: a 32-bit
      pair to which Android reports a trusted RGB_565 record holds an RGB16
      image whose buffer is half of what the loops visit. */
  lemma Rgb16In32BitModeOverruns()
    ensures var o := JniOutcome(Some(Bitmap(7)), 0, AndroidBitmapInfo(2, 2, 4, 4), 0, false, [0, 0], false);
            var r := Resize(Create(32), 2, 2, o);
            r.ok && Inv(r.pair) && MemoryCovers(r.pair.image) &&
            r.pair.image.Format() == RGB16 && !QuadsFit(r.pair.image)
  {
  }

  /** A colour as `QColor` holds it: four 8-bit channels. */
  datatype Colour = Colour(red: bv8, green: bv8, blue: bv8, alpha: bv8)

  /** The ARGB32 word Qt stores for a colour. */
  function ArgbOf(c: Colour): bv32
  {
    Argb(c.alpha, c.red, c.green, c.blue)
  }

  /** The colour `fill` paints with: red and blue exchanged when an Android
      colour is asked for in 32-bit mode, the given colour otherwise. */
  function FillColour(bitness: int, c: Colour, toAndroid: bool): (f: Colour)
    ensures f.alpha == c.alpha && f.green == c.green
    ensures toAndroid && bitness == 32 ==> f.red == c.blue && f.blue == c.red
    ensures !(toAndroid && bitness == 32) ==> f == c
  {
    if toAndroid && bitness == 32 then Colour(c.blue, c.green, c.red, c.alpha) else c
  }

  /** Filling with an Android colour in 32-bit mode writes the same word as
      filling with the Qt colour and then converting the pixel to Android. */
  lemma FillAgreesWithConversion(c: Colour)
    ensures ArgbOf(FillColour(32, c, true)) == Swap(ArgbOf(c))
  {
  }
}

=== FILE: formats.dfy ===
/**
  Qt image formats, Android bitmap format codes, and the two mappings
  between them (`AndroidBitmapFormat_to_QImageFormat`, `qtImageFormatForBitness`).
*/
module Formats {

  /** The `QImage::Format` values this component produces. */
  datatype ImageFormat = Invalid | RGB16 | ARGB32

  /** `AndroidBitmapFormat` codes, as defined by the NDK header android/bitmap.h. */
  const ANDROID_FORMAT_NONE: nat := 0
  const ANDROID_FORMAT_RGBA_8888: nat := 1
  const ANDROID_FORMAT_RGB_565: nat := 4

  /** Bits per pixel of a format (0 for Invalid), as Qt defines it. */
  function Depth(f: ImageFormat): nat
  {
    match f
    case Invalid => 0
    case RGB16 => 16
    case ARGB32 => 32
  }

  /** The Android code that stands for a valid Qt format. */
  function AndroidCode(f: ImageFormat): (code: nat)
    requires f != Invalid
    ensures code != ANDROID_FORMAT_NONE
  {
    if f == RGB16 then ANDROID_FORMAT_RGB_565 else ANDROID_FORMAT_RGBA_8888
  }

  /** Android bitmap format to Qt image format; Invalid for every code
      other than RGB_565 and RGBA_8888. */
  function FromAndroid(abf: nat): (f: ImageFormat)
    ensures f != Invalid <==> abf == ANDROID_FORMAT_RGB_565 || abf == ANDROID_FORMAT_RGBA_8888
    ensures f != Invalid ==> AndroidCode(f) == abf
    ensures f != Invalid ==> Depth(f) == (if abf == ANDROID_FORMAT_RGB_565 then 16 else 32)
  {
    if abf == ANDROID_FORMAT_RGB_565 then RGB16
    else if abf == ANDROID_FORMAT_RGBA_8888 then ARGB32
    else Invalid
  }

  /** The two mappings are inverse on valid formats. */
  lemma FromAndroidOfCode(f: ImageFormat)
    requires f != Invalid
    ensures FromAndroid(AndroidCode(f)) == f
  {
  }

  /** The image format a pair of the given bitness uses: RGB16 for 16,
      ARGB32 for 32, and ARGB32 as the fallback for any other bitness. */
  function ForBitness(bitness: int): (f: ImageFormat)
    ensures f != Invalid
    ensures f == RGB16 <==> bitness == 16
    ensures bitness == 16 || bitness == 32 ==> Depth(f) == bitness
    ensures AndroidCode(f) == (if bitness == 16 then ANDROID_FORMAT_RGB_565 else ANDROID_FORMAT_RGBA_8888)
  {
    if bitness == 32 then FromAndroid(ANDROID_FORMAT_RGBA_8888)
    else if bitness == 16 then FromAndroid(ANDROID_FORMAT_RGB_565)
    else FromAndroid(ANDROID_FORMAT_RGBA_8888)
  }

  /** Bytes per scan line of an image that Qt allocates itself: rows are
      padded to a multiple of 32 bits. */
  function BytesPerLine(width: nat, f: ImageFormat): (bpl: nat)
    ensures bpl % 4 == 0
    ensures bpl * 8 >= width * Depth(f)
    ensures f == ARGB32 ==> bpl == 4 * width
    ensures f == RGB16 ==> bpl == 4 * ((width + 1) / 2)
  {
    RowWordsByFormat(width);
    ((width * Depth(f) + 31) / 32) * 4
  }

  /** Qt's rounding of a row up to whole 32-bit words, per format: a 32-bit
      row is `width` words, a 16-bit row is `width / 2` words rounded up. */
  lemma RowWordsByFormat(width: nat)
    ensures (width * 32 + 31) / 32 == width
    ensures (width * 16 + 31) / 32 == (width + 1) / 2
  {
    var q, r := (width + 1) / 2, (width + 1) % 2;
    assert width * 16 + 31 == 32 * q + (16 * r + 15);
    assert 0 <= 16 * r + 15 < 32;
  }
}

=== FILE: image_pair.dfy ===
/**
  The image pair: a Java bitmap and a Qt image laid over that bitmap's
  memory, and its allocation state machine (`dispose`, `doResize`,
  `resize`, `isAllocated`, `size`). Every call into Java or the Android
  bitmap API appears only through its outcome, collected in `JniOutcome`.
*/
module ImagePair {
  import opened Options
  import opened Machine
  import opened Formats
  import opened BitmapInfo

  /** A Java bitmap object held by the pair; `jobject == 0` is a wrapper
      around a null Java reference. */
  datatype Bitmap = Bitmap(jobject: nat)

  /** A `QImage`: either null, or a geometry record over a pixel buffer.
      `words` is the buffer from the first scan line onward, read as
      32-bit words. */
  datatype Image =
    | NullImage
    | Image(width: nat, height: nat, stride: nat, format: ImageFormat, words: seq<bv32>)
  {
    function Width(): nat { if NullImage? then 0 else width }
    function Height(): nat { if NullImage? then 0 else height }
    function Format(): ImageFormat { if NullImage? then Invalid else format }
    function Words(): seq<bv32> { if NullImage? then [] else words }
    predicate IsNull() { NullImage? }

    /** What every `QImage` satisfies: a non-null image has a positive size
        and a valid format. */
    predicate WellFormed()
    {
      NullImage? || (width > 0 && height > 0 && format != Invalid)
    }
  }

  /** `QImage(width, height, format)`: a buffer Qt allocates itself, with
      rows padded to 32 bits; null for an empty size or an invalid format.
      Its contents are uninitialised and modelled as zero words. */
  function Allocate(width: int, height: int, format: ImageFormat): (img: Image)
    ensures img.IsNull() <==> width <= 0 || height <= 0 || format == Invalid
    ensures img.WellFormed() && MemoryCovers(img)
    ensures !img.IsNull() ==>
              img.Width() == width && img.Height() == height && img.Format() == format &&
              img.stride == BytesPerLine(width, format) &&
              |img.Words()| * 4 == img.stride * height
  {
    if width <= 0 || height <= 0 || format == Invalid then NullImage
    else
      var stride := BytesPerLine(width, format);
      Image(width, height, stride, format, seq(stride / 4 * height, _ => 0))
  }

  /** The buffer holds at least `stride * height` bytes, as every buffer Qt
      or Android allocates for an image of that geometry does. */
  predicate MemoryCovers(img: Image)
  {
    img.NullImage? || img.stride * img.height <= |img.words| * 4
  }

  /** The 1x1 image a disposed pair keeps. */
  function Placeholder(bitness: int): Image
  {
    Allocate(1, 1, ForBitness(bitness))
  }

  datatype Pair = Pair(bitness: int, image: Image, bitmap: Option<Bitmap>)

  /** The disposed state: the placeholder image and no bitmap. */
  function Disposed(bitness: int): Pair
  {
    Pair(bitness, Placeholder(bitness), None)
  }

  /** The states the operations below reach: disposed, or holding a
      non-null bitmap with a non-empty image of a valid format over it.
      Painting is not modelled, so a disposed pair here always holds the
      unpainted placeholder. */
  predicate Inv(p: Pair)
  {
    && p.image.WellFormed()
    && match p.bitmap
    case None => p == Disposed(p.bitness)
    case Some(b) =>
      b.jobject != 0 && !p.image.IsNull() && p.image.Width() > 0 && p.image.Height() > 0 &&
      p.image.Format() != Invalid
  }

  /** `isAllocated`: a bitmap with a non-null Java object and a non-null
      image. In a state satisfying Inv that is exactly holding a bitmap, and the
      image is then non-empty. */
  predicate IsAllocated(p: Pair)
    ensures Inv(p) ==> (IsAllocated(p) <==> p.bitmap.Some?)
    ensures Inv(p) && IsAllocated(p) ==> p.image.Width() > 0 && p.image.Height() > 0
  {
    p.bitmap.Some? && p.bitmap.value.jobject != 0 && !p.image.IsNull()
  }

  /** `size`: (0, 0) when not allocated; in a state satisfying Inv a zero size
      means exactly "not allocated", and an allocated pair has a positive
      size. */
  function Size(p: Pair): (sz: (nat, nat))
    ensures !IsAllocated(p) ==> sz == (0, 0)
    ensures Inv(p) ==> (sz == (0, 0) <==> !IsAllocated(p))
    ensures Inv(p) && IsAllocated(p) ==> sz.0 > 0 && sz.1 > 0
    ensures sz != (0, 0) ==> sz == (p.image.Width(), p.image.Height())
  {
    if !IsAllocated(p) then (0, 0) else (p.image.Width(), p.image.Height())
  }

  /** `dispose`: returns early when the pair already is a 1x1 image with no
      bitmap; otherwise installs the placeholder and drops the bitmap. */
  function Dispose(p: Pair): (q: Pair)
    ensures q.bitness == p.bitness && q.bitmap.None?
    ensures q.image.Width() == 1 && q.image.Height() == 1
    ensures !IsAllocated(q) && Size(q) == (0, 0)
    ensures Inv(p) ==> q == Disposed(p.bitness)
    ensures p.image.Width() != 1 || p.image.Height() != 1 || p.bitmap.Some? ==> q == Disposed(p.bitness)
  {
    if p.image.Width() == 1 && p.image.Height() == 1 && p.bitmap.None? then p
    else Disposed(p.bitness)
  }

  /** Disposing twice is disposing once. */
  lemma DisposeIdempotent(p: Pair)
    ensures Dispose(Dispose(p)) == Dispose(p)
  {
  }

  /** The constructor: a pair starts from a null image and no bitmap and
      disposes itself. */
  function Create(bitness: int): (p: Pair)
    ensures p == Disposed(bitness) && Inv(p) && !IsAllocated(p)
  {
    Dispose(Pair(bitness, NullImage, None))
  }

  /**
    What the foreign calls made by one `doResize` return:
    `created` is the wrapper `createBitmap` hands back (None for a null
    wrapper: missing Java class or a Java exception); `infoStatus` and
    `reported` come from `AndroidBitmap_getInfo`; `lockStatus`,
    `pointerIsNull` and `memory` from `AndroidBitmap_lockPixels`;
    `imageIsNull` tells whether Qt refused to build an image over that memory.
  */
  datatype JniOutcome = JniOutcome(
    created: Option<Bitmap>,
    infoStatus: int,
    reported: AndroidBitmapInfo,
    lockStatus: int,
    pointerIsNull: bool,
    memory: seq<bv32>,
    imageIsNull: bool)

  /** The layout `doResize` settles on, once the bitmap exists. */
  function ResizeLayout(bitness: int, width: i32, height: i32, o: JniOutcome): Option<Layout>
    requires width >= 1 && height >= 1
  {
    Sanitize(bitness, width, height, QueriedInfo(o.infoStatus, o.reported))
  }

  /** Every foreign step of `doResize` succeeds. */
  predicate StepsSucceed(bitness: int, width: i32, height: i32, o: JniOutcome)
  {
    && width >= 1 && height >= 1
    && o.created.Some? && o.created.value.jobject != 0
    && ResizeLayout(bitness, width, height, o).Some?
    && o.lockStatus == 0 && !o.pointerIsNull && !o.imageIsNull
  }

  /** The result of a resize: whether it succeeded, and the new state. */
  datatype Resized = Resized(ok: bool, pair: Pair)

  /** The pair a successful `doResize` installs: an image over the locked
      memory with the sanitised layout, and the new bitmap. */
  function Installed(bitness: int, layout: Layout, o: JniOutcome): Pair
  {
    Pair(bitness, Image(layout.width, layout.height, layout.stride, layout.format, o.memory), o.created)
  }

  /** `doResize`: a request below 1x1 fails and changes nothing; success
      happens exactly when every foreign step succeeds, and installs the new
      bitmap with an image of the sanitised layout over its memory; a null
      image over that memory leaves the disposed state; every other failure
      disposes. */
  function DoResize(p: Pair, width: i32, height: i32, o: JniOutcome): (r: Resized)
    ensures width < 1 || height < 1 ==> r == Resized(false, p)
    ensures r.ok <==> StepsSucceed(p.bitness, width, height, o)
    ensures r.ok ==> r.pair == Installed(p.bitness, ResizeLayout(p.bitness, width, height, o).value, o)
    ensures r.ok ==> IsAllocated(r.pair) && Inv(r.pair)
    ensures !r.ok && width >= 1 && height >= 1 ==>
              r.pair == (if StepsSucceed(p.bitness, width, height, o.(imageIsNull := false))
                         then Disposed(p.bitness) else Dispose(p))
  {
    if width < 1 || height < 1 then Resized(false, p)
    else if o.created.None? || o.created.value.jobject == 0 then Resized(false, Dispose(p))
    else match ResizeLayout(p.bitness, width, height, o)
      case None => Resized(false, Dispose(p))
      case Some(layout) =>
        if o.lockStatus != 0 || o.pointerIsNull then Resized(false, Dispose(p))
        // The null image has already replaced the old one, so dispose never
        // takes its early return here.
        else if o.imageIsNull then Resized(false, Disposed(p.bitness))
        else
          Resized(true, Installed(p.bitness, layout, o))
  }

  /** `resize(w, h)`: nothing to do when already allocated at that size. */
  function Resize(p: Pair, width: i32, height: i32, o: JniOutcome): (r: Resized)
    ensures r.pair.bitness == p.bitness
    // The same-size shortcut.
    ensures IsAllocated(p) && p.image.Width() == width && p.image.Height() == height ==> r == Resized(true, p)
    // An invalid request fails and changes nothing.
    ensures Inv(p) && (width < 1 || height < 1) ==> r == Resized(false, p)
    // Every later failure disposes.
    ensures !r.ok && width >= 1 && height >= 1 ==>
              r.pair == (if StepsSucceed(p.bitness, width, height, o.(imageIsNull := false))
                         then Disposed(p.bitness) else Dispose(p))
    // Success leaves the pair allocated, over the new bitmap unless the shortcut was taken.
    ensures r.ok ==> IsAllocated(r.pair)
    // Without the shortcut, success installs the new bitmap and an image of
    // the sanitised layout over its locked memory.
    ensures r.ok && !(IsAllocated(p) && p.image.Width() == width && p.image.Height() == height) ==>
              StepsSucceed(p.bitness, width, height, o) &&
              r.pair == Installed(p.bitness, ResizeLayout(p.bitness, width, height, o).value, o)
    // Success is the shortcut or all foreign steps succeeding.
    ensures r.ok <==> (IsAllocated(p) && p.image.Width() == width && p.image.Height() == height)
                      || StepsSucceed(p.bitness, width, height, o)
  {
    if IsAllocated(p) && p.image.Width() == width && p.image.Height() == height then Resized(true, p)
    else DoResize(p, width, height, o)
  }

  /** The locked memory holds the bytes of the layout `doResize` settles on.
      The code never checks this; Android guarantees it when the layout is
      the one it reported. */
  predicate LockedMemoryCovers(bitness: int, width: i32, height: i32, o: JniOutcome)
  {
    width >= 1 && height >= 1 && ResizeLayout(bitness, width, height, o).Some? ==>
      var l := ResizeLayout(bitness, width, height, o).value;
      l.stride * l.height <= |o.memory| * 4
  }

  /** When the locked memory covers the layout, every resize outcome leaves
      an image whose buffer covers its geometry. */
  lemma ResizeKeepsMemoryCovered(p: Pair, width: i32, height: i32, o: JniOutcome)
    requires MemoryCovers(p.image)
    requires LockedMemoryCovers(p.bitness, width, height, o)
    ensures MemoryCovers(Resize(p, width, height, o).pair.image)
  {
  }

  /** The null-image failure does not keep a painted placeholder: the null
      image replaces it before the pair is disposed. */
  lemma NullImageResetsPlaceholder()
    ensures var p := Pair(32, Image(1, 1, 4, ARGB32, [0xFF]), None);
            var o := JniOutcome(Some(Bitmap(7)), 0, AndroidBitmapInfo(2, 2, 8, 1), 0, false, [0, 0, 0, 0], true);
            Dispose(p) == p && Resize(p, 2, 2, o) == Resized(false, Disposed(32)) && p != Disposed(32)
  {
    var p := Pair(32, Image(1, 1, 4, ARGB32, [0xFF]), None);
    assert Placeholder(32).words[0] == 0 != p.image.words[0];
  }

  /** Every resize outcome keeps the pair in a state satisfying Inv. */
  lemma ResizePreservesInv(p: Pair, width: i32, height: i32, o: JniOutcome)
    requires Inv(p)
    ensures Inv(Resize(p, width, height, o).pair)
  {
  }

  /** A fresh resize (no shortcut) that succeeds yields the size Android
      reported when that report was trusted, and the requested size when it
      was not. */
  lemma ResizeSize(p: Pair, width: i32, height: i32, o: JniOutcome)
    requires width >= 1 && height >= 1
    requires StepsSucceed(p.bitness, width, height, o)
    requires !(IsAllocated(p) && p.image.Width() == width && p.image.Height() == height)
    ensures var r := Resize(p, width, height, o);
            var info := QueriedInfo(o.infoStatus, o.reported);
            r.ok && Size(r.pair) == (if IsBogus(info) then (width as nat, height as nat) else (info.width as nat, info.height as nat))
  {
  }

  /** Resizing to the size the pair already has is idempotent: after a
      successful resize to the requested size, a second resize to that size
      succeeds without any foreign call and changes nothing. */
  lemma ResizeTwice(p: Pair, width: i32, height: i32, o: JniOutcome, o': JniOutcome)
    requires Resize(p, width, height, o).ok
    requires Size(Resize(p, width, height, o).pair) == (width as nat, height as nat)
    ensures var q := Resize(p, width, height, o).pair;
            Resize(q, width, height, o') == Resized(true, q)
  {
  }
}

=== FILE: options.dfy ===
/** Optional values and fixed-width integer ranges shared by the other modules. */
module Options {

  /** A value that may be absent, in place of a null pointer. */
  datatype Option<+T> = None | Some(value: T)
}

module Machine {

  const TWO_TO_THE_32: int := 0x1_0000_0000

  /** The range of C's `uint32_t`. */
  type u32 = x: int | 0 <= x < 0x1_0000_0000

  /** The range of C's `int` on the target (32-bit, two's complement). */
  type i32 = x: int | -0x8000_0000 <= x < 0x8000_0000

  /** The value an `int` expression takes once it is stored into a `uint32_t`
      (reduction modulo 2^32, also for negative values). */
  function ToU32(x: int): (r: u32)
    ensures 0 <= x < TWO_TO_THE_32 ==> r == x
    ensures (r - x) % TWO_TO_THE_32 == 0
  {
    x % TWO_TO_THE_32
  }
}

=== FILE: pixels.dfy ===
/**
  32-bit pixel words and the red/blue exchange that turns a Qt ARGB32 word
  (0xAARRGGBB) into the word Android expects for an RGBA_8888 bitmap
  (0xAABBGGRR on a little-endian device), and back.
*/
module Pixels {

  /** Channels of a word read in Qt's ARGB32 layout. */
  function Alpha(c: bv32): bv8 { (c >> 24) as bv8 }
  function Red(c: bv32): bv8 { ((c >> 16) & 0xFF) as bv8 }
  function Green(c: bv32): bv8 { ((c >> 8) & 0xFF) as bv8 }
  function Blue(c: bv32): bv8 { (c & 0xFF) as bv8 }

  /** Packs four channels into one ARGB32 word; the channel readers recover them. */
  function Argb(a: bv8, r: bv8, g: bv8, b: bv8): (c: bv32)
    ensures Alpha(c) == a && Red(c) == r && Green(c) == g && Blue(c) == b
  {
    (a as bv32 << 24) | (r as bv32 << 16) | (g as bv32 << 8) | b as bv32
  }

  /** The per-pixel conversion of both conversion loops: the blue byte moves
      to the red position, the red byte to the blue position, and alpha and
      green stay where they are, so ARGB becomes ABGR. */
  function Swap(c: bv32): (r: bv32)
    ensures r & 0xFF00FF00 == c & 0xFF00FF00
    ensures Alpha(r) == Alpha(c) && Green(r) == Green(c)
    ensures Red(r) == Blue(c) && Blue(r) == Red(c)
  {
    ((c >> 16) & 0xFF) | ((c & 0xFF) << 16) | (c & 0xFF00FF00)
  }

  /** Swapping exchanges exactly the red and blue channels. */
  lemma SwapOfArgb(a: bv8, r: bv8, g: bv8, b: bv8)
    ensures Swap(Argb(a, r, g, b)) == Argb(a, b, g, r)
  {
  }

  /** The conversion is its own inverse, which is why Android-to-Qt is the
      same code as Qt-to-Android. */
  lemma SwapInvolution(c: bv32)
    ensures Swap(Swap(c)) == c
  {
  }

  /** Hence the conversion is injective: distinct pixels stay distinct. */
  lemma SwapInjective(c: bv32, d: bv32)
    ensures Swap(c) == Swap(d) <==> c == d
  {
  }
}
